=== FILE: README.md ===
# Spam classifier service — a Dafny model of its decision logic

The application is a small Django service. It classifies e-mail text as
`spam` or `ham` with a pre-trained classifier, records every classification,
and lets the owner of a classification say once whether it was right. This
project models the parts of it that make decisions:

- **Model store** (`ml_config.dfy`, module `MlConfig`). At start-up the
  process picks the newest `best_model_*.pkl` in the models directory and
  unpickles it. It checks that the file holds a bundle with a classifier and a
  sentence-transformer reference. The two process-wide fields are then set
  together or cleared together.
- **Prediction endpoint** (`predict.dfy`, module `Predict`). The endpoint
  checks the input and the model store, then reconciles the classifier's
  output (a predicted position, a probability vector and the class list) into
  a label and a confidence. On success it writes exactly one classification
  row.
- **Feedback endpoint** (`feedback.dfy`, module `FeedbackView`). A fixed
  chain of checks runs first: login, method, content type, JSON decoding,
  ownership, the duplicate flag, form validity. Then come the two writes: the
  feedback row and the flag.
- **Records** (`records.dfy`, module `Records`). This covers the
  classification and feedback entities, their defaults and optional fields,
  and the one-to-one feedback link. It also covers the deletion cascades, the
  newest-first default ordering and the display strings. The database is a
  value (`Store`) with a consistency invariant `Valid`. A classification
  insert and both delete cascades keep it on their own. The two feedback
  writes keep it only as a pair: the feedback row, then the flag.
- **`ALLOWED_HOSTS`** (`settings.dfy`, module `Settings`). The comma-separated
  host setting is split, stripped, and has its blank pieces dropped.
- **Python built-ins** (`pytext.dfy`, module `PyText`). These are
  `str.isspace`, `strip`, `split`, `join`, `startswith`/`endswith`,
  `list.index` and subscripting with negative indices, all with Python's
  semantics. `wrappers.dfy` holds `Option`.

Every foreign call is an input to the model:

- the file system (directory existence, listing, modification times);
- `joblib.load`;
- the `SentenceTransformer` constructor and `encode`;
- the classifier's `predict`/`predict_proba`/`classes_`;
- JSON decoding;
- the model form's validation.

An exception is an explicit outcome: `None`, `LoadRaised`, `RunRaised` or
`ServerError`. Each endpoint is a pure function from the database (and the
model store) to a response and the new database.

## Model

| member | source | states |
|---|---|---|
| MlConfig.Candidates | ml_service/config.py:31 | The candidates are exactly the listed entries whose name starts with `best_model_` and ends with `.pkl`, in listing order. The result is empty iff no entry qualifies. |
| MlConfig.CandidatesAppend | ml_service/config.py:31 | Filtering a concatenated listing filters each part in turn, so candidates keep their relative listing order. |
| MlConfig.CandidatesCons | ml_service/config.py:31 | The first entry is kept iff it is a candidate, ahead of the rest's candidates. |
| MlConfig.CandidatesCount | ml_service/config.py:31 | Each candidate occurs in the result exactly as often as in the listing, and no other entry occurs. |
| MlConfig.LatestCandidate | ml_service/config.py:36 | `max(..., key=mtime)` as one left-to-right pass. It is `None` iff there is no candidate. Otherwise it picks a candidate at least as new as every other, and the earliest one in listing order among equally new ones. |
| MlConfig.ChosenFile | ml_service/config.py:31-36 | The file opened is a candidate whose mtime is at least that of every candidate. It is absent iff there are no candidates. |
| MlConfig.OnException | ml_service/config.py:54-58 | The exception handler leaves both fields `None`, so the store is not ready. |
| MlConfig.LoadModels | ml_service/config.py:26-58 | Missing directory: returns False with the fields untouched. A failing listing, unpickling or transformer construction clears both fields, even when the classifier was already assigned. No candidates, or a bundle without both keys: False, untouched. Returns True iff the newest candidate unpickles to a dict with `model` and `transformer` and the transformer can be built. On success both fields come from that bundle. A failure never leaves a half-loaded state. |
| MlConfig.GetClassifier | ml_service/config.py:60-61 | The getter hands back the classifier field as it stands; on the initial (or reset) store it is `None`. |
| MlConfig.GetTransformer | ml_service/config.py:63-64 | The getter hands back the transformer field as it stands; on the initial (or reset) store it is `None`. |
| MlConfig.Ready | ml_service/views.py:30-34 | The store counts as ready only with a non-`None` classifier and a built transformer. With a transformer, a classifier object always counts, and any other value counts iff it is truthy. |
| MlConfig.FailedStartupNotReady | ml_service/config.py:14-58 | Starting from the initial fields, a failed load leaves the store not ready. |
| MlConfig.LoadedReadyIff | ml_service/config.py:45-64 | After a successful load, the getters report a ready store iff the bundle's `model` value is truthy. A bundle holding `None` under `model` makes the loader return True but leaves the store not ready. |
| Predict.Reconcile | ml_service/views.py:56-73 | `classes[pred]` must exist, with negative positions counting from the end. If both `spam` and `ham` occur in the classes, the label is `classes[pred]`. Its confidence is then the probability at the first position of `spam` when the label is `spam`, else at the first position of `ham`. This path fails iff either position is beyond the probability vector. If either name is missing, the label is `spam` iff `pred == 1` (always one of the declared choices) and the confidence is `proba[1]` or `proba[0]`. This path fails iff fewer than two probabilities are given. Any confidence is an element of the probability vector. |
| Predict.PredictHandler | ml_service/views.py:24-106 | Missing or empty text: 400 and nothing written. Models not ready: 500 "not ready" and nothing written. A classifier without `predict_proba`: 500 and nothing written. Past the text check every failure is a 500. An exception from encoding, from running the classifier, from reconciling its output or from the write ends in the catch-all 500 "An internal server error occurred during prediction…". Every failure leaves the database unchanged. Success needs the write to go through: the requester exists (or there is none) and the next id is free, so an `IntegrityError` from `objects.create` is a 500. On success the classifier ran and its reconciled verdict is what the response reports, the response echoes the input text, and exactly one row was added under a fresh id. That row holds the requester (or no owner), the text, the label, the confidence and an unset feedback flag. Every other row, user and feedback row is unchanged. |
| Predict.Fallback | ml_service/views.py:62-68 | The `except ValueError` branch fails (an `IndexError`) iff fewer than two probabilities are given. Otherwise the label is `spam` exactly when `pred == 1`, always one of the declared choices, with confidence `proba[1]` for `spam` and `proba[0]` for `ham`. |
| Predict.NeverLoadedNeverPredicts | ml_service/views.py:27-36 | With both model fields `None`, every request gets the 400 or the "not ready" 500, and nothing is written. |
| Predict.WhitespaceTextAccepted | ml_service/views.py:27-29 | Text made only of whitespace is not rejected as missing. |
| Predict.PredictSucceedsIff | ml_service/views.py:31-106 | On a consistent database with an existing requester (or none), non-empty text succeeds iff all of these hold: the models are ready, encoding does not raise, the classifier has `predict_proba`, the classifier runs, and its output reconciles. The database stays consistent. |
| Predict.ConfidenceInUnitInterval | ml_service/views.py:50-73 | If the probabilities lie in [0, 1], so does a reported confidence. |
| Predict.StoredLabelChoices | ml_service/views.py:56-94 | A stored label is one of the declared choices iff the fallback path was taken or `classes[pred]` is one of them. |
| FeedbackView.Lookup | core/views.py:95 | `data.get(key)` is the value under the key when present and `None` when absent. |
| FeedbackView.CommentField | core/views.py:96 | The comment is `""` when absent, and `strip()` of the submitted string otherwise, so it has no surrounding whitespace. It raises (`None`) iff the value is present but not a string. |
| FeedbackView.SubmitFeedback | core/views.py:86-120 | An anonymous caller is redirected. A method other than POST gets 405. A content type other than exactly `application/json` gets 400, before the body is read. An undecodable body gets 400, before any lookup. A non-object body or a non-string comment escapes as a 500. A classification that is missing, ownerless or someone else's is 404. A set flag gets the "already submitted" 400. Every failure leaves the database unchanged. Past those checks, a form the oracle rejects gets the form-errors 400. An accepted form is saved unless a feedback row already exists although the flag is unset; then the one-to-one constraint raises an `IntegrityError` the view does not catch, a 500 with nothing written. Success implies all of these: the request was well formed, the classification was the requester's with its flag unset, and the form accepted the submitted values. Exactly one feedback row with the form's cleaned values is added, that classification's flag becomes true and nothing else changes. |
| FeedbackView.OwnerlessNeverReviewed | core/views.py:101 | A classification without an owner can never receive feedback. |
| FeedbackView.SecondSubmissionRejected | core/views.py:103-114 | After a successful submission every later request about the same classification fails and writes nothing. A well-formed one from the owner gets "Feedback already submitted.". |
| FeedbackView.SubmitFeedbackValid | core/views.py:101-117 | The view keeps a consistent database consistent. Its only 500s come from malformed bodies: the one-to-one constraint never fires because the flag is checked first. |
| FeedbackView.SubmitFeedbackSucceedsIff | core/views.py:101-117 | On a consistent database, a request succeeds iff all of these hold: it is well formed, it is about the requester's own classification, that classification's flag is unset, and the form accepts the submitted values. |
| FeedbackView.CommentArrivesStripped | core/views.py:96-107 | The comment handed to the form is `""` when none was sent. Otherwise it is the part of the submitted comment left after cutting only whitespace from both ends, with no whitespace left at either end. A whitespace-only comment arrives as `""`. |
| Records.EmptyStore | core/models.py:15-33 | The empty database is consistent. |
| Records.InsertClassification | core/models.py:15-20 | `objects.create` fails iff the next id is taken or the owner does not exist. Otherwise it adds exactly one row under a fresh id and changes nothing else. |
| Records.InsertFeedback | core/models.py:33 | Saving a feedback row fails iff its classification is missing or already has feedback (the one-to-one link). Otherwise exactly that row is added. |
| Records.MarkFeedbackProvided | core/models.py:20 | Saving the flag sets it on that row only and keeps every other field and row. |
| Records.DeleteClassification | core/models.py:33 | Deleting a classification removes it and its feedback and keeps everything else. |
| Records.DeleteUser | core/models.py:15-33 | Deleting a user removes it, every classification it owns and their feedback. Every other user, and every ownerless or other user's classification, stays unchanged. |
| Records.InsertClassificationValid | core/models.py:15-20 | A new row with an unset flag and an existing (or no) owner is always stored, and the database stays consistent. |
| Records.FeedbackWritesValid | core/models.py:20-33 | On a classification whose flag is unset, the feedback insert succeeds and the two writes keep the database consistent. |
| Records.DeleteClassificationValid | core/models.py:33 | The classification cascade keeps the database consistent. |
| Records.DeleteUserValid | core/models.py:15-33 | The user cascade keeps the database consistent. |
| Records.InsertByTime | core/models.py:26-27 | Inserting into a newest-first list keeps it newest first and adds one row. |
| Records.InsertByTimePermutes | core/models.py:26-27 | The insertion adds exactly that row, as a multiset. |
| Records.OrderNewestFirst | core/models.py:26-27 | The default ordering is newest first. |
| Records.OrderNewestFirstPermutes | core/models.py:26-27 | The ordering is a permutation of the rows. |
| Records.ClassificationText | core/models.py:22-24 | The display string starts with the owner's name (`System` without an owner), ` - `, the label and ` (`, and ends with the formatted time in parentheses. Its length leaves nothing between the two. |
| Records.FeedbackText | core/models.py:38-39 | The display string is `Feedback for ` followed by the classification's display string, ending in ` - Correct: True`/`False`, with nothing in between. |
| Settings.AllowedHosts | spam_classifier_project/settings.py:37-38 | Every host is non-empty, has no surrounding whitespace and contains no comma. |
| Settings.KeepHosts | spam_classifier_project/settings.py:38 | Every kept host is non-empty and stripped. |
| Settings.KeepHostsSingle | spam_classifier_project/settings.py:38 | One piece gives exactly one host, its `strip()`, or none when that is blank. With `Settings.KeepHostsAppend` this fixes the hosts for any list of pieces: one per non-blank piece, in order. |
| Settings.KeepHostsCommaFree | spam_classifier_project/settings.py:38 | Hosts cut from comma-free pieces contain no comma. |
| Settings.KeepHostsAppend | spam_classifier_project/settings.py:38 | Hosts come out in the order of the pieces they were cut from. |
| Settings.KeepHostsMembers | spam_classifier_project/settings.py:38 | A string is a host iff it is the non-empty stripped form of some piece. |
| Settings.BlankPiecesDropped | spam_classifier_project/settings.py:38 | Empty and whitespace-only pieces contribute nothing. |
| Settings.KeepHostsFixed | spam_classifier_project/settings.py:38 | Well-formed hosts pass through unchanged. |
| Settings.AllowedHostsIdempotent | spam_classifier_project/settings.py:38 | Re-parsing the comma-join of the result gives the same list. |
| Settings.AllowedHostsDropsBlanks | spam_classifier_project/settings.py:38 | `"a, ,b,"` gives `["a", "b"]`. |
| Settings.BlankBetweenHosts | spam_classifier_project/settings.py:38 | A blank piece between two hosts, and the empty piece after a trailing comma, are dropped. |
| Settings.DefaultAllowedHostsValue | spam_classifier_project/settings.py:37-38 | The default value gives `["127.0.0.1", "localhost"]`. |
| Settings.TwoHosts | spam_classifier_project/settings.py:38 | Two well-formed hosts joined by a comma parse back to exactly those two. |
| PyText.Strip | core/views.py:96 | `strip()` leaves no whitespace at either end and never lengthens the string (what it removes exactly: `PyText.StripCutsSpace`). |
| PyText.StripCutsSpace | spam_classifier_project/settings.py:38 | `strip()` returns the slice after the leading whitespace. What it removes on either side is whitespace, and the result is empty iff the string is all whitespace. |
| PyText.StripStripped | spam_classifier_project/settings.py:38 | `strip()` leaves a string without surrounding whitespace unchanged. |
| PyText.Split | spam_classifier_project/settings.py:38 | `split(',')` yields at least one piece. No piece contains the separator, and joining the pieces gives the input back. |
| PyText.SplitJoin | spam_classifier_project/settings.py:38 | Splitting undoes joining for a non-empty list of separator-free pieces. |
| PyText.IndexOf | ml_service/views.py:60-61 | `list.index`: absent (`ValueError`) iff the item does not occur. Otherwise it is the first position holding it. |
| PyText.Subscript | ml_service/views.py:56 | Indexing succeeds iff `-len <= i < len`. The element comes from the sequence. A non-negative index gives the element at that position, and a negative index `i` gives the element at position `len + i`. |

## Left out

- Logging everywhere, and `round(confidence, 4)` in the prediction response (ml_service/views.py:99). Probabilities are exact reals, so `Predicted.confidence` is the unrounded value the row stores.
- `Predict.PredictHandler`: the request body is reduced to an optional string `email_text`. A body that is not a mapping, and a non-string `email_text` (whose truthiness then decides the 400), are not modelled.
- `Predict.Reconcile`: the predicted class is an integer position, following the source's own comment at ml_service/views.py:46. With a classifier trained on string labels, `predict` returns the label itself. The subscript at ml_service/views.py:56 would then raise, and the request would end in the catch-all 500. That case is not modelled. Numeric class labels are represented by their decimal text; the code only ever compares classes with `spam` and `ham`.
- `MlConfig.Truthy`: a classifier object's truth value is taken as true. The transformer is either built or absent.
- `MlConfig.LoadModels`: a `getmtime` failure during `max`, a failing `open`, and an unpickling failure all map to the single `LoadRaised` outcome, or to `listing = None` for the listing step. The directory path itself is not modelled.
- `FeedbackView.SubmitFeedback`: the form's validation is an oracle from the two submitted values to its verdict and cleaned values. Its error dictionary is not modelled. A body that is not UTF-8 is not modelled either.
- `FeedbackView.SubmitFeedback`: the two writes (core/views.py:111,114) are consecutive and not atomic. Crash behaviour between them is not modelled. The model only claims the outcome of a call that completes.
- Database column limits (`max_length=10` on the label) and the conversion of Python floats to database values are not modelled.
- Concurrency: requests are modelled one at a time.
- `MlConfig.Entry`: `os.path.getmtime` returns a float, modelled as an integer. The loader only compares modification times (ml_service/config.py:36), so the order of the values is all that matters.
- ml_service/apps.py, URL routing, templates, the other views, admin registrations and the rest of settings.py are not part of this model.

## Code versus its own declarations

- `CLASSIFICATION_CHOICES` (core/models.py:11-14) declares `ham` and `spam` only. The named path stores and returns `classes[pred]` (ml_service/views.py:56,73,89-94). `objects.create` does not check choices, so a third class name reaches the database and the response (`Predict.StoredLabelChoices`).
- `max(..., key=...)` (ml_service/config.py:36) keeps the first of equally new files in listing order (`MlConfig.LatestCandidate`). `os.listdir` does not promise any order, so which of them is chosen depends on the file system.
- A bundle of the wrong shape (ml_service/config.py:50-52) returns False but does not reset the fields, unlike the exception handler (lines 54-58) (`MlConfig.LoadModels`). At start-up they still hold their initial `None` (lines 14-16), so the store is not ready (`MlConfig.FailedStartupNotReady`).

=== FILE: feedback.dfy ===
/** The feedback endpoint of core/views.py (`submit_feedback`): a logged-in
    user posts a JSON body saying whether one of their own classifications was
    correct, with an optional comment; the view stores at most one feedback row
    per classification and sets the classification's `is_feedback_provided`
    flag. The JSON decoder and the model form's validation are inputs: the body
    arrives already decoded (or as a decoding failure), and the form is an
    oracle from the two submitted values to its verdict and cleaned values. */
module FeedbackView {
  import opened Wrappers
  import opened PyText
  import opened Records

  /** A decoded JSON value. Python's `None` and JSON `null` are the same value. */
  datatype Json =
    | JNull
    | JBool(b: bool)
    | JNumber(n: real)
    | JString(str: string)
    | JArray(items: seq<Json>)
    | JObject(fields: map<string, Json>)

  /** What `FeedbackForm(...).is_valid()` decides, with `cleaned_data` when valid. */
  datatype FormOutcome = FormInvalid | FormValid(isCorrect: bool, comment: Option<string>)

  /** One call of the view. `body` is `None` when `json.loads` raises
      `JSONDecodeError`; `contentType` is `None` when the header is absent. */
  datatype FeedbackRequest = FeedbackRequest(
    user: Option<UserId>,
    httpMethod: string,
    contentType: Option<string>,
    body: Option<Json>,
    classificationId: ClassificationId)

  datatype FeedbackResponse =
    | FeedbackSaved                    // 200, status "success"
    | FeedbackError(message: string)   // 400, status "error" with a message
    | FormRejected                     // 400, status "error" with the form's errors
    | NotFound                         // 404 from `get_object_or_404`
    | LoginRedirect                    // 302 to the login page (`login_required`)
    | MethodNotAllowed                 // 405 (`require_POST`)
    | ServerError                      // 500: an exception the view does not catch

  const JsonContentType: string := "application/json"
  const ExpectedJsonError: string := "Expected application/json"
  const InvalidJsonError: string := "Invalid JSON."
  const DuplicateError: string := "Feedback already submitted."

  /** The HTTP status of a response. */
  function Status(r: FeedbackResponse): (code: int)
    ensures code == 200 <==> r == FeedbackSaved
    ensures code == 400 <==> r.FeedbackError? || r == FormRejected
  {
    match r
    case FeedbackSaved => 200
    case FeedbackError(_) => 400
    case FormRejected => 400
    case NotFound => 404
    case LoginRedirect => 302
    case MethodNotAllowed => 405
    case ServerError => 500
  }

  /** `data.get(key)`: the value under `key`, or `None` when absent. */
  function Lookup(fields: map<string, Json>, key: string): (v: Json)
    ensures key !in fields ==> v == JNull
    ensures key in fields ==> v == fields[key]
  {
    if key in fields then fields[key] else JNull
  }

  /** `data.get('user_comment', '').strip()`: the stripped comment, `""` when
      the key is absent, and `None` where `.strip()` raises because the value
      is not a string (including JSON `null`). */
  function CommentField(fields: map<string, Json>): (c: Option<string>)
    ensures c.None? <==> "user_comment" in fields && !fields["user_comment"].JString?
    ensures c.Some? ==> Stripped(c.value)
    ensures "user_comment" !in fields ==> c == Some("")
    ensures "user_comment" in fields && fields["user_comment"].JString? ==>
              c == Some(Strip(fields["user_comment"].str))
  {
    if "user_comment" !in fields then Some(Strip(""))
    else match fields["user_comment"]
      case JString(x) => Some(Strip(x))
      case _ => None
  }

  /** The classification the view looks up: it must exist and belong to the
      requesting user (`get_object_or_404(..., user=request.user)`). */
  predicate OwnedBy(s: Store, id: ClassificationId, user: Option<UserId>) {
    id in s.classifications && user.Some? && s.classifications[id].owner == user
  }

  /** The request gets past the decorators, the content-type check and the
      JSON decoding, and its body is an object whose comment can be stripped. */
  predicate WellFormed(req: FeedbackRequest) {
    && req.user.Some? && req.httpMethod == "POST" && req.contentType == Some(JsonContentType)
    && req.body.Some? && req.body.value.JObject? && CommentField(req.body.value.fields).Some?
  }

  /** The two values handed to the form. */
  function FormInput(req: FeedbackRequest): (input: (Json, string))
    requires WellFormed(req)
    ensures input.0 == Lookup(req.body.value.fields, "is_correct")
    ensures Some(input.1) == CommentField(req.body.value.fields)
  {
    (Lookup(req.body.value.fields, "is_correct"), CommentField(req.body.value.fields).value)
  }

  /** `submit_feedback(request, classification_id)`: the response and the
      database afterwards. */
  function SubmitFeedback(s: Store, req: FeedbackRequest, form: (Json, string) -> FormOutcome, now: Timestamp)
    : (r: (FeedbackResponse, Store))
    // the decorators come first: anonymous callers are redirected, other methods refused
    ensures req.user.None? ==> r == (LoginRedirect, s)
    ensures req.user.Some? && req.httpMethod != "POST" ==> r == (MethodNotAllowed, s)
    // the content type must be exactly `application/json`, before anything is read
    ensures req.user.Some? && req.httpMethod == "POST" && req.contentType != Some(JsonContentType) ==>
              r == (FeedbackError(ExpectedJsonError), s)
    // an undecodable body is rejected before any record is looked up
    ensures (&& req.user.Some? && req.httpMethod == "POST" && req.contentType == Some(JsonContentType)
             && req.body.None?) ==> r == (FeedbackError(InvalidJsonError), s)
    // a body that is not an object, or a comment that is not a string, escapes as a 500
    ensures (&& req.user.Some? && req.httpMethod == "POST" && req.contentType == Some(JsonContentType)
             && req.body.Some? && !WellFormed(req)) ==> r == (ServerError, s)
    // someone else's (or an ownerless, or a missing) classification is not found
    ensures WellFormed(req) && !OwnedBy(s, req.classificationId, req.user) ==> r == (NotFound, s)
    // a classification that already has its flag set is refused
    ensures (&& WellFormed(req) && OwnedBy(s, req.classificationId, req.user)
             && s.classifications[req.classificationId].feedbackProvided) ==> r == (FeedbackError(DuplicateError), s)
    // past those checks, a form the oracle rejects gets the form-errors 400
    ensures (&& WellFormed(req) && OwnedBy(s, req.classificationId, req.user)
             && !s.classifications[req.classificationId].feedbackProvided
             && form(FormInput(req).0, FormInput(req).1).FormInvalid?) ==> r == (FormRejected, s)
    // and an accepted form is saved, unless a feedback row already exists despite the unset flag
    ensures (&& WellFormed(req) && OwnedBy(s, req.classificationId, req.user)
             && !s.classifications[req.classificationId].feedbackProvided
             && form(FormInput(req).0, FormInput(req).1).FormValid?) ==>
              (r.0 == FeedbackSaved <==> !HasFeedback(s, req.classificationId))
    // a feedback row already there despite the unset flag trips the uncaught `IntegrityError`
    ensures (&& WellFormed(req) && OwnedBy(s, req.classificationId, req.user)
             && !s.classifications[req.classificationId].feedbackProvided
             && form(FormInput(req).0, FormInput(req).1).FormValid?
             && HasFeedback(s, req.classificationId)) ==> r == (ServerError, s)
    // every failure leaves the database as it was
    ensures r.0 != FeedbackSaved ==> r.1 == s
    // success: one new feedback row carrying the form's cleaned values, and the flag set
    ensures r.0 == FeedbackSaved ==>
      && WellFormed(req) && OwnedBy(s, req.classificationId, req.user)
      && !s.classifications[req.classificationId].feedbackProvided
      && form(FormInput(req).0, FormInput(req).1).FormValid?
      && var id := req.classificationId;
         var out := form(FormInput(req).0, FormInput(req).1);
         var f := Feedback(id, out.isCorrect, out.comment, now);
         && f !in s.feedback && r.1.feedback == s.feedback + {f}
         && r.1.classifications.Keys == s.classifications.Keys
         && r.1.classifications[id] == s.classifications[id].(feedbackProvided := true)
         && (forall k :: k in s.classifications && k != id ==> r.1.classifications[k] == s.classifications[k])
         && r.1.users == s.users && r.1.nextId == s.nextId
  {
    if req.user.None? then (LoginRedirect, s)
    else if req.httpMethod != "POST" then (MethodNotAllowed, s)
    else if req.contentType != Some(JsonContentType) then (FeedbackError(ExpectedJsonError), s)
    else
      match req.body
      case None => (FeedbackError(InvalidJsonError), s)
      case Some(data) =>
        if !data.JObject? then (ServerError, s)
        else
          var isCorrect := Lookup(data.fields, "is_correct");
          match CommentField(data.fields)
          case None => (ServerError, s)
          case Some(comment) =>
            var id := req.classificationId;
            if !OwnedBy(s, id, req.user) then (NotFound, s)
            else if s.classifications[id].feedbackProvided then (FeedbackError(DuplicateError), s)
            else
              match form(isCorrect, comment)
              case FormInvalid => (FormRejected, s)
              case FormValid(ok, cleaned) =>
                match InsertFeedback(s, Feedback(id, ok, cleaned, now))
                // the one-to-one constraint fails: `IntegrityError` is not caught
                case None => (ServerError, s)
                case Some(t) => (FeedbackSaved, MarkFeedbackProvided(t, id))
  }

  /** A classification without an owner (one made by the mail-server script)
      can never receive feedback through this view. */
  lemma OwnerlessNeverReviewed(s: Store, req: FeedbackRequest, form: (Json, string) -> FormOutcome, now: Timestamp)
    requires req.classificationId in s.classifications
    requires s.classifications[req.classificationId].owner.None?
    ensures SubmitFeedback(s, req, form, now).0 != FeedbackSaved
    ensures SubmitFeedback(s, req, form, now).1 == s
  {
  }

  /** Once feedback is saved for a classification, any later request about it
      fails and writes nothing; a well-formed one from the owner gets the
      "already submitted" answer. */
  lemma SecondSubmissionRejected(s: Store, req: FeedbackRequest, req2: FeedbackRequest,
                                 form: (Json, string) -> FormOutcome, now: Timestamp, later: Timestamp)
    requires SubmitFeedback(s, req, form, now).0 == FeedbackSaved
    requires req2.classificationId == req.classificationId
    ensures var t := SubmitFeedback(s, req, form, now).1;
      && SubmitFeedback(t, req2, form, later).0 != FeedbackSaved
      && SubmitFeedback(t, req2, form, later).1 == t
      && (WellFormed(req2) && req2.user == req.user ==>
            SubmitFeedback(t, req2, form, later).0 == FeedbackError(DuplicateError))
  {
  }

  /** On a consistent database the view keeps it consistent, and its only 500s
      come from malformed bodies: the one-to-one constraint never fires,
      because the flag is checked first. */
  lemma SubmitFeedbackValid(s: Store, req: FeedbackRequest, form: (Json, string) -> FormOutcome, now: Timestamp)
    requires Valid(s)
    ensures Valid(SubmitFeedback(s, req, form, now).1)
    ensures SubmitFeedback(s, req, form, now).0 == ServerError ==> !WellFormed(req)
  {
    if WellFormed(req) && OwnedBy(s, req.classificationId, req.user)
       && !s.classifications[req.classificationId].feedbackProvided {
      var out := form(FormInput(req).0, FormInput(req).1);
      if out.FormValid? {
        FeedbackWritesValid(s, Feedback(req.classificationId, out.isCorrect, out.comment, now));
      }
    }
  }

  /** On a consistent database, a request succeeds exactly when it is well
      formed, about the requester's own classification whose flag is unset,
      and the form accepts the submitted values. */
  lemma SubmitFeedbackSucceedsIff(s: Store, req: FeedbackRequest, form: (Json, string) -> FormOutcome, now: Timestamp)
    requires Valid(s)
    ensures SubmitFeedback(s, req, form, now).0 == FeedbackSaved <==>
      && WellFormed(req) && OwnedBy(s, req.classificationId, req.user)
      && !s.classifications[req.classificationId].feedbackProvided
      && form(FormInput(req).0, FormInput(req).1).FormValid?
  {
    if WellFormed(req) && OwnedBy(s, req.classificationId, req.user)
       && !s.classifications[req.classificationId].feedbackProvided {
      assert !HasFeedback(s, req.classificationId);
    }
  }

  /** The comment handed to the form is the submitted comment without its
      surrounding whitespace: a piece of it, with only whitespace cut off either
      side and none left at either end; `""` when there is no comment, and also
      when the comment is whitespace only. */
  lemma CommentArrivesStripped(req: FeedbackRequest)
    requires WellFormed(req)
    ensures Stripped(FormInput(req).1)
    ensures "user_comment" !in req.body.value.fields ==> FormInput(req).1 == ""
    ensures "user_comment" in req.body.value.fields ==>
      var x, c := req.body.value.fields["user_comment"].str, FormInput(req).1;
      && LeadingSpaces(x) + |c| <= |x|
      && c == x[LeadingSpaces(x)..LeadingSpaces(x) + |c|]
      && (forall i :: 0 <= i < LeadingSpaces(x) ==> IsSpace(x[i]))
      && (forall i :: LeadingSpaces(x) + |c| <= i < |x| ==> IsSpace(x[i]))
    ensures "user_comment" in req.body.value.fields && AllSpace(req.body.value.fields["user_comment"].str) ==>
              FormInput(req).1 == ""
  {
    var fields := req.body.value.fields;
    if "user_comment" in fields {
      StripCutsSpace(fields["user_comment"].str);
    }
  }
}

=== FILE: ml_config.dfy ===
/** The model store of ml_service/config.py: at start-up the process picks the
    newest `best_model_*.pkl` file in the models directory, unpickles it,
    checks that it is a bundle with a classifier and a sentence-transformer
    reference, and holds the pair in two process-wide fields. The file system,
    the unpickler and the `SentenceTransformer` constructor are inputs
    (`LoadEnv`); an exception is an explicit outcome. */
module MlConfig {
  import opened Wrappers
  import opened PyText

  /** One directory entry as `os.listdir` and `os.path.getmtime` report it. */
  datatype Entry = Entry(name: string, mtime: int)

  /** A loaded classifier object, as far as the prediction handler inspects it. */
  datatype Classifier = Classifier(hasPredictProba: bool)

  /** A value stored under a key of the unpickled bundle: `None`, a classifier,
      or some other object with its Python truth value. */
  datatype PyValue = PyNone | Estimator(clf: Classifier) | Other(truthy: bool)

  /** A constructed `SentenceTransformer` (an opaque handle). */
  datatype Transformer = Transformer(handle: nat)

  /** What `joblib.load` produces for the chosen file. */
  datatype Unpickled = LoadRaised | NotADict | Bundle(keys: map<string, PyValue>)

  /** The environment the loader runs in. `listing` is `None` when
      `os.listdir` raises; `sentenceTransformer` gives `None` when the
      constructor raises. */
  datatype LoadEnv = LoadEnv(
    dirExists: bool,
    listing: Option<seq<Entry>>,
    unpickle: string -> Unpickled,
    sentenceTransformer: PyValue -> Option<Transformer>)

  /** The two fields `classifier_model` and `sentence_transformer`. */
  datatype MlState = MlState(classifier: PyValue, transformer: Option<Transformer>)

  const ModelPrefix: string := "best_model_"
  const ModelSuffix: string := ".pkl"

  /** Both fields `None`: the class attributes' initial values, and what the
      exception handler resets them to. */
  const Unloaded: MlState := MlState(PyNone, None)

  /** Python's truth value of what the classifier field holds (`not x` is its negation). */
  predicate Truthy(v: PyValue) {
    match v
    case PyNone => false
    case Estimator(_) => true
    case Other(t) => t
  }

  /** `get_classifier()`. */
  function GetClassifier(st: MlState): (c: PyValue)
    ensures c == st.classifier
    ensures st == Unloaded ==> c == PyNone
  {
    st.classifier
  }

  /** `get_transformer()`. */
  function GetTransformer(st: MlState): (t: Option<Transformer>)
    ensures t == st.transformer
    ensures st == Unloaded ==> t.None?
  {
    st.transformer
  }

  /** The prediction handler's readiness test: neither getter result is falsy. */
  function Ready(st: MlState): (ready: bool)
    ensures ready ==> st.classifier != PyNone && st.transformer.Some?
    ensures st.classifier.Estimator? && st.transformer.Some? ==> ready
    ensures st.classifier.Other? ==> (ready <==> st.classifier.truthy && st.transformer.Some?)
  {
    Truthy(GetClassifier(st)) && GetTransformer(st).Some?
  }

  /** The list comprehension's filter. */
  predicate IsCandidate(name: string) {
    StartsWith(name, ModelPrefix) && EndsWith(name, ModelSuffix)
  }

  /** The candidate model files, in listing order: exactly the entries whose
      name starts with `best_model_` and ends with `.pkl`. */
  function Candidates(listing: seq<Entry>): (cs: seq<Entry>)
    ensures forall i :: 0 <= i < |cs| ==> IsCandidate(cs[i].name) && cs[i] in listing
    ensures forall e :: e in listing && IsCandidate(e.name) ==> e in cs
    ensures |cs| == 0 <==> forall e :: e in listing ==> !IsCandidate(e.name)
    decreases |listing|
  {
    if |listing| == 0 then []
    else
      var rest := Candidates(listing[1..]);
      assert forall e :: e in listing[1..] ==> e in listing;
      assert forall e :: e in listing ==> e == listing[0] || e in listing[1..];
      if IsCandidate(listing[0].name) then [listing[0]] + rest else rest
  }

  /** Filtering a concatenation filters each part in turn: candidates keep the
      relative order they have in the listing. */
  lemma {:induction false} CandidatesAppend(a: seq<Entry>, b: seq<Entry>)
    ensures Candidates(a + b) == Candidates(a) + Candidates(b)
    decreases |a|
  {
    if |a| == 0 {
      assert a + b == b;
    } else {
      var head: seq<Entry> := if IsCandidate(a[0].name) then [a[0]] else [];
      calc {
        Candidates(a + b);
        { assert [a[0]] + (a[1..] + b) == a + b; CandidatesCons(a[0], a[1..] + b); }
        head + Candidates(a[1..] + b);
        { CandidatesAppend(a[1..], b); }
        head + (Candidates(a[1..]) + Candidates(b));
        { assert [a[0]] + a[1..] == a; CandidatesCons(a[0], a[1..]); }
        Candidates(a) + Candidates(b);
      }
    }
  }

  /** The first entry is kept exactly when it is a candidate, ahead of the rest's candidates. */
  lemma CandidatesCons(e: Entry, rest: seq<Entry>)
    ensures Candidates([e] + rest) == (if IsCandidate(e.name) then [e] else []) + Candidates(rest)
  {
    assert ([e] + rest)[1..] == rest;
  }

  /** Each candidate occurs as often as in the listing, and nothing else occurs. */
  lemma {:induction false} CandidatesCount(listing: seq<Entry>)
    ensures forall e :: multiset(Candidates(listing))[e] ==
                          (if IsCandidate(e.name) then multiset(listing)[e] else 0)
    decreases |listing|
  {
    if |listing| > 0 {
      CandidatesCount(listing[1..]);
      assert listing == [listing[0]] + listing[1..];
    }
  }

  /** `max(candidates, key=mtime)` over the filtered listing, as Python
      computes it in one left-to-right pass: a later candidate replaces the
      current best only when strictly newer. The result is a position in the
      listing: `None` when there is no candidate; otherwise a candidate at least
      as new as every other, and the first such in listing order. */
  function LatestCandidate(listing: seq<Entry>): (r: Option<nat>)
    ensures r.None? <==> forall j :: 0 <= j < |listing| ==> !IsCandidate(listing[j].name)
    ensures r.Some? ==> r.value < |listing| && IsCandidate(listing[r.value].name)
    ensures r.Some? ==> forall j :: 0 <= j < |listing| && IsCandidate(listing[j].name) ==>
                          listing[j].mtime <= listing[r.value].mtime
    ensures r.Some? ==> forall j :: 0 <= j < r.value && IsCandidate(listing[j].name) ==>
                          listing[j].mtime < listing[r.value].mtime
    decreases |listing|
  {
    if |listing| == 0 then None
    else
      var n := |listing| - 1;
      var init := listing[..n];
      var best := LatestCandidate(init);
      assert forall j :: 0 <= j < n ==> init[j] == listing[j];
      if !IsCandidate(listing[n].name) then best
      else if best.None? || listing[n].mtime > listing[best.value].mtime then Some(n)
      else best
  }

  /** The model file the loader opens: a candidate of the listing at least as
      new as every other, or `None` when the listing has no candidate. */
  function ChosenFile(listing: seq<Entry>): (r: Option<Entry>)
    ensures r.None? <==> |Candidates(listing)| == 0
    ensures r.Some? ==> r.value in Candidates(listing)
    ensures r.Some? ==> forall e :: e in Candidates(listing) ==> e.mtime <= r.value.mtime
  {
    match LatestCandidate(listing)
    case None =>
      assert forall e :: e in listing ==> !IsCandidate(e.name);
      None
    case Some(i) => Some(listing[i])
  }

  /** The bundle shape check: a dict with both a `model` and a `transformer` key. */
  predicate Complete(u: Unpickled) {
    u.Bundle? && "model" in u.keys && "transformer" in u.keys
  }

  /** The exception handler: both fields back to `None`, whatever was already
      assigned in the `try` block. */
  function OnException(st: MlState): (t: MlState)
    ensures !Ready(t)
    ensures t == Unloaded
  {
    st.(classifier := PyNone, transformer := None)
  }

  /** `load_models_on_startup()`: the result flag and the fields afterwards. */
  function LoadModels(st: MlState, env: LoadEnv): (r: (bool, MlState))
    // a missing directory returns False and touches nothing
    ensures !env.dirExists ==> r == (false, st)
    // a listing failure is an exception
    ensures env.dirExists && env.listing.None? ==> r == (false, Unloaded)
    // no candidate file: False, fields untouched
    ensures env.dirExists && env.listing.Some? && ChosenFile(env.listing.value).None? ==> r == (false, st)
    // True exactly when a chosen file unpickles to a complete bundle whose transformer can be built
    ensures r.0 <==>
      && env.dirExists && env.listing.Some? && ChosenFile(env.listing.value).Some?
      && var u := env.unpickle(ChosenFile(env.listing.value).value.name);
         Complete(u) && env.sentenceTransformer(u.keys["transformer"]).Some?
    // on success both fields come from the bundle of the chosen file
    ensures r.0 ==>
      var u := env.unpickle(ChosenFile(env.listing.value).value.name);
      r.1.classifier == u.keys["model"] && r.1.transformer == env.sentenceTransformer(u.keys["transformer"])
    // a bundle of the wrong shape returns False and touches nothing
    ensures (&& env.dirExists && env.listing.Some? && ChosenFile(env.listing.value).Some?
             && !Complete(env.unpickle(ChosenFile(env.listing.value).value.name))
             && env.unpickle(ChosenFile(env.listing.value).value.name) != LoadRaised) ==> r == (false, st)
    // the transformer failing after the classifier field was assigned clears both fields
    ensures (&& env.dirExists && env.listing.Some? && ChosenFile(env.listing.value).Some?
             && var u := env.unpickle(ChosenFile(env.listing.value).value.name);
                Complete(u) && env.sentenceTransformer(u.keys["transformer"]).None?) ==> r == (false, Unloaded)
    // an unpickling failure clears both fields
    ensures (&& env.dirExists && env.listing.Some? && ChosenFile(env.listing.value).Some?
             && env.unpickle(ChosenFile(env.listing.value).value.name) == LoadRaised) ==> r == (false, Unloaded)
    // on failure the fields are either untouched or both cleared: never half loaded
    ensures !r.0 ==> r.1 == st || r.1 == Unloaded
  {
    if !env.dirExists then (false, st)
    else
      match env.listing
      case None => (false, OnException(st))
      case Some(listing) =>
        match ChosenFile(listing)
        case None => (false, st)
        case Some(chosen) =>
          match env.unpickle(chosen.name)
          case LoadRaised => (false, OnException(st))
          case NotADict => (false, st)
          case Bundle(keys) =>
            if "model" in keys && "transformer" in keys then
              // `self.classifier_model` is assigned before the transformer is built
              var half := st.(classifier := keys["model"]);
              match env.sentenceTransformer(keys["transformer"])
              case None => (false, OnException(half))
              case Some(t) => (true, half.(transformer := Some(t)))
            else (false, st)
  }

  /** A process whose start-up load failed is not ready for predictions. */
  lemma FailedStartupNotReady(env: LoadEnv)
    ensures !LoadModels(Unloaded, env).0 ==> !Ready(LoadModels(Unloaded, env).1)
  {
  }

  /** After a successful load the process is ready exactly when the bundle's
      `model` value is truthy: a bundle holding `None` under `model` still
      makes the loader return True. */
  lemma LoadedReadyIff(st: MlState, env: LoadEnv)
    requires LoadModels(st, env).0
    ensures Ready(LoadModels(st, env).1) <==>
            Truthy(env.unpickle(ChosenFile(env.listing.value).value.name).keys["model"])
  {
  }
}

=== FILE: predict.dfy ===
/** The prediction endpoint of ml_service/views.py (`PredictSpamAPIView.post`):
    check the input, check that the model store is ready, run the classifier,
    reconcile its output into a `spam`/`ham` label and a confidence, and write
    exactly one classification row. The sentence-transformer encoding and the
    classifier calls are opaque; their outcomes are inputs (`Inference`). */
module Predict {
  import opened Wrappers
  import opened PyText
  import opened Records
  import opened MlConfig

  /** What the classifier gives for the encoded text: `predict(...)[0]` (used
      as a position in `classes_`), `predict_proba(...)[0]` and `classes_`.
      A numeric class is represented by its decimal text; the handler only
      ever compares classes with `'spam'` and `'ham'`. `RunRaised` stands for
      an exception from either call. */
  datatype ClassifierRun =
    | RunRaised
    | RunOutput(pred: int, proba: seq<real>, classes: seq<string>)

  /** The opaque inference calls of one request. */
  datatype Inference = Inference(encodeRaises: bool, run: ClassifierRun)

  /** The request: the `email_text` field if present, and the authenticated
      user (`None` for an anonymous caller). */
  datatype PredictRequest = PredictRequest(emailText: Option<string>, user: Option<UserId>)

  /** The label and confidence derived from one classifier run. */
  datatype Verdict = Verdict(category: string, confidence: real)

  datatype PredictResponse =
    | Predicted(prediction: string, confidence: real, emailText: string, classificationId: ClassificationId)
    | BadRequest(error: string)
    | ServerError(error: string)

  const MissingTextError: string := "Email text ('email_text') is required."
  const NotReadyError: string := "ML models are not ready. Please try again or contact support."
  const NoProbaError: string := "Classifier model is not configured for probability prediction."
  const InternalError: string := "An internal server error occurred during prediction. Please try again."

  /** The HTTP status of a response. */
  function Status(r: PredictResponse): (code: int)
    ensures code == 200 <==> r.Predicted?
  {
    match r
    case Predicted(_, _, _, _) => 200
    case BadRequest(_) => 400
    case ServerError(_) => 500
  }

  /** `hasattr(classifier_model, 'predict_proba')`. */
  predicate HasPredictProba(v: PyValue) {
    v.Estimator? && v.clf.hasPredictProba
  }

  /** Both canonical class names occur among the classifier's classes: the
      `try` block's two `list(classes).index(...)` calls succeed. */
  predicate NamedClasses(classes: seq<string>) {
    Spam in classes && Ham in classes
  }

  /** The label/confidence rule. `classes[pred]` is taken first (an
      out-of-range position raises). With both names present the label is
      `classes[pred]` and the confidence is the probability at the first
      position of `spam` if the label is `spam`, else at the first position of
      `ham`; otherwise the fallback reads `proba[1]` and `proba[0]` and labels
      `spam` exactly when `pred == 1`. `None` where an `IndexError` escapes. */
  function Reconcile(pred: int, proba: seq<real>, classes: seq<string>): (v: Option<Verdict>)
    // classes[pred] must exist, with Python's negative positions
    ensures Subscript(classes, pred).None? ==> v.None?
    // named path: succeeds exactly when both first positions index into proba
    ensures Subscript(classes, pred).Some? && NamedClasses(classes) ==>
      (v.Some? <==> IndexOf(classes, Spam).value < |proba| && IndexOf(classes, Ham).value < |proba|)
    ensures v.Some? && NamedClasses(classes) ==>
      && v.value.category == Subscript(classes, pred).value
      && (v.value.category == Spam ==> v.value.confidence == proba[IndexOf(classes, Spam).value])
      && (v.value.category != Spam ==> v.value.confidence == proba[IndexOf(classes, Ham).value])
    // fallback path: needs two probabilities, labels by pred == 1
    ensures Subscript(classes, pred).Some? && !NamedClasses(classes) ==> (v.Some? <==> |proba| >= 2)
    ensures v.Some? && !NamedClasses(classes) ==>
      && v.value.category in LabelChoices
      && (v.value.category == Spam <==> pred == 1)
      && v.value.confidence == (if pred == 1 then proba[1] else proba[0])
    // in every case the confidence is one of the probabilities
    ensures v.Some? ==> v.value.confidence in proba
  {
    match Subscript(classes, pred)
    case None => None
    case Some(named) =>
      match IndexOf(classes, Spam)
      case None => Fallback(pred, proba)
      case Some(si) =>
        match IndexOf(classes, Ham)
        case None => Fallback(pred, proba)
        case Some(hi) =>
          if si < |proba| && hi < |proba| then
            Some(Verdict(named, if named == Spam then proba[si] else proba[hi]))
          else None
  }

  /** The `except ValueError` branch: `proba[1]` and `proba[0]` are read first,
      then `spam` is chosen exactly when `pred == 1`. */
  function Fallback(pred: int, proba: seq<real>): (v: Option<Verdict>)
    ensures v.Some? <==> |proba| >= 2
    ensures v.Some? ==> v.value.category in LabelChoices && (v.value.category == Spam <==> pred == 1)
    ensures v.Some? ==> v.value.confidence == (if v.value.category == Spam then proba[1] else proba[0])
  {
    if |proba| < 2 then None
    else
      var spamProbability := proba[1];
      var hamProbability := proba[0];
      var chosen := if pred == 1 then Spam else Ham;
      Some(Verdict(chosen, if chosen == Spam then spamProbability else hamProbability))
  }

  /** `PredictSpamAPIView.post`: the response and the database afterwards. */
  function PredictHandler(s: Store, ml: MlState, req: PredictRequest, inf: Inference, now: Timestamp)
    : (r: (PredictResponse, Store))
    // missing or empty text: 400, nothing written (whitespace is not trimmed)
    ensures (req.emailText.None? || req.emailText.value == "") ==> r == (BadRequest(MissingTextError), s)
    // non-empty text but models not loaded: 500, nothing written
    ensures req.emailText.Some? && req.emailText.value != "" && !Ready(ml) ==>
              r == (ServerError(NotReadyError), s)
    // loaded classifier without predict_proba: 500, nothing written
    ensures (&& req.emailText.Some? && req.emailText.value != "" && Ready(ml)
             && !inf.encodeRaises && !HasPredictProba(ml.classifier)) ==> r == (ServerError(NoProbaError), s)
    // every failure leaves the database as it was
    ensures !r.0.Predicted? ==> r.1 == s && Status(r.0) != 200
    // past the text check, every failure is a 500
    ensures req.emailText.Some? && req.emailText.value != "" && !r.0.Predicted? ==> r.0.ServerError?
    // an exception inside the `try` block (encoding, the classifier run, the
    // reconciliation, the write) ends in the catch-all 500
    ensures (&& req.emailText.Some? && req.emailText.value != "" && Ready(ml) && !r.0.Predicted?
             && (inf.encodeRaises || HasPredictProba(ml.classifier))) ==> r.0 == ServerError(InternalError)
    // success: the classifier ran and its verdict is what the response reports
    ensures r.0.Predicted? ==>
      && req.emailText == Some(r.0.emailText) && r.0.emailText != ""
      && Ready(ml) && !inf.encodeRaises && HasPredictProba(ml.classifier) && inf.run.RunOutput?
      && Reconcile(inf.run.pred, inf.run.proba, inf.run.classes) == Some(Verdict(r.0.prediction, r.0.confidence))
    // success needs the write to go through: the requester exists and the next id is free
    ensures r.0.Predicted? ==>
      && (req.user.Some? ==> req.user.value in s.users)
      && s.nextId !in s.classifications && r.0.classificationId == s.nextId
    // success: exactly one new row, holding what the response reports
    ensures r.0.Predicted? ==>
      var id := r.0.classificationId;
      && id !in s.classifications
      && r.1.classifications.Keys == s.classifications.Keys + {id}
      && (forall k :: k in s.classifications ==> r.1.classifications[k] == s.classifications[k])
      && r.1.classifications[id] ==
           Classification(req.user, r.0.emailText, r.0.prediction, Some(r.0.confidence), now, false)
      && r.1.feedback == s.feedback && r.1.users == s.users
  {
    if req.emailText.None? || req.emailText.value == "" then (BadRequest(MissingTextError), s)
    else if !Ready(ml) then (ServerError(NotReadyError), s)
    else if inf.encodeRaises then (ServerError(InternalError), s)
    else if !HasPredictProba(GetClassifier(ml)) then (ServerError(NoProbaError), s)
    else
      match inf.run
      case RunRaised => (ServerError(InternalError), s)
      case RunOutput(pred, proba, classes) =>
        match Reconcile(pred, proba, classes)
        case None => (ServerError(InternalError), s)
        case Some(v) =>
          var text := req.emailText.value;
          match InsertClassification(s, NewClassification(req.user, text, v.category, Some(v.confidence), now))
          case None => (ServerError(InternalError), s)
          case Some((id, t)) => (Predicted(v.category, v.confidence, text, id), t)
  }

  /** A process whose models never loaded answers every request with 400 or
      the "not ready" 500, and writes nothing. */
  lemma NeverLoadedNeverPredicts(s: Store, req: PredictRequest, inf: Inference, now: Timestamp)
    ensures var r := PredictHandler(s, Unloaded, req, inf, now);
      r.1 == s && (r.0 == BadRequest(MissingTextError) || r.0 == ServerError(NotReadyError))
  {
  }

  /** Text made only of whitespace is not rejected as missing: it goes on to
      classification like any other text. */
  lemma WhitespaceTextAccepted(s: Store, ml: MlState, text: string, user: Option<UserId>,
                               inf: Inference, now: Timestamp)
    requires |text| > 0 && AllSpace(text)
    ensures PredictHandler(s, ml, PredictRequest(Some(text), user), inf, now).0 != BadRequest(MissingTextError)
  {
  }

  /** On a consistent database, with an existing (or no) user, a request with
      text succeeds exactly when the models are ready, the classifier runs and
      its output reconciles; the database stays consistent. */
  lemma PredictSucceedsIff(s: Store, ml: MlState, req: PredictRequest, inf: Inference, now: Timestamp)
    requires Valid(s)
    requires req.user.Some? ==> req.user.value in s.users
    requires req.emailText.Some? && req.emailText.value != ""
    ensures var r := PredictHandler(s, ml, req, inf, now);
      r.0.Predicted? <==>
        && Ready(ml) && !inf.encodeRaises && HasPredictProba(ml.classifier) && inf.run.RunOutput?
        && Reconcile(inf.run.pred, inf.run.proba, inf.run.classes).Some?
    ensures Valid(PredictHandler(s, ml, req, inf, now).1)
  {
    var r := PredictHandler(s, ml, req, inf, now);
    if && Ready(ml) && !inf.encodeRaises && HasPredictProba(ml.classifier) && inf.run.RunOutput?
       && Reconcile(inf.run.pred, inf.run.proba, inf.run.classes).Some? {
      var v := Reconcile(inf.run.pred, inf.run.proba, inf.run.classes).value;
      InsertClassificationValid(s, NewClassification(req.user, req.emailText.value, v.category, Some(v.confidence), now));
    }
  }

  /** With probabilities in [0, 1], a reported confidence is in [0, 1]. */
  lemma ConfidenceInUnitInterval(s: Store, ml: MlState, req: PredictRequest, inf: Inference, now: Timestamp)
    requires inf.run.RunOutput? && forall p :: p in inf.run.proba ==> 0.0 <= p <= 1.0
    ensures var r := PredictHandler(s, ml, req, inf, now);
      r.0.Predicted? ==> 0.0 <= r.0.confidence <= 1.0
  {
  }

  /** On the fallback path the stored label is always one of the declared
      choices; on the named path it is one exactly when `classes[pred]` is. */
  lemma StoredLabelChoices(s: Store, ml: MlState, req: PredictRequest, inf: Inference, now: Timestamp)
    ensures var r := PredictHandler(s, ml, req, inf, now);
      r.0.Predicted? ==>
        (r.0.prediction in LabelChoices <==>
           !NamedClasses(inf.run.classes) || Subscript(inf.run.classes, inf.run.pred).value in LabelChoices)
  {
  }
}

=== FILE: pytext.dfy ===
/** The handful of Python built-ins on `str` and sequences that the application
    relies on, with Python's own semantics: `str.isspace`, `str.strip()`,
    `str.split(sep)`, `sep.join`, `str.startswith`/`str.endswith`,
    `list.index` and subscripting with possibly negative indices. */
module PyText {
  import opened Wrappers

  /** The characters for which Python's `str.isspace()` holds; `str.strip()`
      with no argument removes exactly these. */
  predicate IsSpace(c: char) {
    || ('\t' <= c <= '\r')
    || ('\U{1C}' <= c <= '\U{1F}')
    || c == ' '
    || c == '\U{85}'
    || c == '\U{A0}'
    || c == '\U{1680}'
    || ('\U{2000}' <= c <= '\U{200A}')
    || c == '\U{2028}'
    || c == '\U{2029}'
    || c == '\U{202F}'
    || c == '\U{205F}'
    || c == '\U{3000}'
  }

  /** Every character of `s` is whitespace (vacuously true of ""). */
  predicate AllSpace(s: string) {
    forall i :: 0 <= i < |s| ==> IsSpace(s[i])
  }

  /** `s` has neither leading nor trailing whitespace. */
  predicate Stripped(s: string) {
    |s| == 0 || (!IsSpace(s[0]) && !IsSpace(s[|s| - 1]))
  }

  /** `str.lstrip()`: the longest suffix of `s` that does not start with whitespace. */
  function TrimStart(s: string): (r: string)
    ensures |r| <= |s|
    ensures |r| > 0 ==> !IsSpace(r[0])
    decreases |s|
  {
    if |s| > 0 && IsSpace(s[0]) then TrimStart(s[1..]) else s
  }

  /** `str.rstrip()`: the longest prefix of `s` that does not end with whitespace. */
  function TrimEnd(s: string): (r: string)
    ensures |r| <= |s|
    ensures |r| > 0 ==> r[0] == s[0] && !IsSpace(r[|r| - 1])
    decreases |s|
  {
    if |s| > 0 && IsSpace(s[|s| - 1]) then TrimEnd(s[..|s| - 1]) else s
  }

  /** `TrimStart(s)` is a suffix of `s`, and everything it cuts off is whitespace. */
  lemma {:induction false} TrimStartCutsSpace(s: string)
    ensures TrimStart(s) == s[|s| - |TrimStart(s)|..]
    ensures forall i :: 0 <= i < |s| - |TrimStart(s)| ==> IsSpace(s[i])
    decreases |s|
  {
    if |s| > 0 && IsSpace(s[0]) {
      TrimStartCutsSpace(s[1..]);
      assert s[1..][|s| - 1 - |TrimStart(s)|..] == s[|s| - |TrimStart(s)|..];
      forall i | 0 < i < |s| - |TrimStart(s)| ensures IsSpace(s[i]) {
        assert s[i] == s[1..][i - 1];
      }
    }
  }

  /** `TrimEnd(s)` is a prefix of `s`, and everything it cuts off is whitespace. */
  lemma {:induction false} TrimEndCutsSpace(s: string)
    ensures TrimEnd(s) == s[..|TrimEnd(s)|]
    ensures forall i :: |TrimEnd(s)| <= i < |s| ==> IsSpace(s[i])
    decreases |s|
  {
    if |s| > 0 && IsSpace(s[|s| - 1]) {
      TrimEndCutsSpace(s[..|s| - 1]);
      assert s[..|s| - 1][..|TrimEnd(s)|] == s[..|TrimEnd(s)|];
      forall i | |TrimEnd(s)| <= i < |s| - 1 ensures IsSpace(s[i]) {
        assert s[i] == s[..|s| - 1][i];
      }
    }
  }

  /** How many whitespace characters `str.strip()` removes from the front of `s`. */
  function LeadingSpaces(s: string): (n: nat)
    ensures n <= |s|
  {
    |s| - |TrimStart(s)|
  }

  /** `str.strip()`: `s` without its leading and trailing whitespace (see
      `StripCutsSpace` for what exactly is removed). */
  function Strip(s: string): (r: string)
    ensures Stripped(r)
    ensures |r| <= |s|
  {
    TrimEnd(TrimStart(s))
  }

  /** `Strip(s)` is the slice of `s` that starts right after the leading
      whitespace, what it removes on either side is whitespace, and it is empty
      exactly when the whole string is whitespace. */
  lemma StripCutsSpace(s: string)
    ensures LeadingSpaces(s) + |Strip(s)| <= |s|
    ensures Strip(s) == s[LeadingSpaces(s)..LeadingSpaces(s) + |Strip(s)|]
    ensures forall i :: 0 <= i < LeadingSpaces(s) ==> IsSpace(s[i])
    ensures forall i :: LeadingSpaces(s) + |Strip(s)| <= i < |s| ==> IsSpace(s[i])
    ensures |Strip(s)| == 0 <==> AllSpace(s)
  {
    var t := TrimStart(s);
    var r := TrimEnd(t);
    var a := |s| - |t|;
    TrimStartCutsSpace(s);
    TrimEndCutsSpace(t);
    forall i | a + |r| <= i < |s| ensures IsSpace(s[i]) {
      assert s[i] == t[i - a];
    }
    if |r| == 0 {
      assert t[|r|..] == t;
    } else {
      assert s[a] == r[0];
    }
  }

  /** A character that does not occur in `s` does not occur in `Strip(s)`. */
  lemma StripKeepsOut(s: string, c: char)
    requires c !in s
    ensures c !in Strip(s)
  {
    var r := Strip(s);
    var a := LeadingSpaces(s);
    StripCutsSpace(s);
    forall i | 0 <= i < |r| ensures r[i] != c {
      assert r[i] == s[a + i];
    }
  }

  /** Stripping a string that has no surrounding whitespace leaves it unchanged. */
  lemma {:induction false} StripStripped(s: string)
    requires Stripped(s)
    ensures Strip(s) == s
  {
    assert TrimStart(s) == s;
    assert TrimEnd(s) == s;
  }

  /** `sep.join(parts)`. */
  function Join(parts: seq<string>, sep: char): (r: string)
    ensures |parts| == 1 ==> r == parts[0]
    decreases |parts|
  {
    if |parts| == 0 then ""
    else if |parts| == 1 then parts[0]
    else parts[0] + [sep] + Join(parts[1..], sep)
  }

  /** `s.split(sep)` with an explicit one-character separator: always at least
      one piece, no piece contains `sep`, and joining the pieces with `sep`
      gives back `s`. */
  function Split(s: string, sep: char): (parts: seq<string>)
    ensures |parts| >= 1
    ensures forall i :: 0 <= i < |parts| ==> sep !in parts[i]
    ensures Join(parts, sep) == s
    decreases |s|
  {
    if |s| == 0 then [""]
    else
      var rest := Split(s[1..], sep);
      if s[0] == sep then
        assert s == [sep] + s[1..];
        [""] + rest
      else
        var parts := [[s[0]] + rest[0]] + rest[1..];
        assert parts[1..] == rest[1..];
        assert s == [s[0]] + s[1..];
        parts
  }

  /** A string without the separator splits into itself alone. */
  lemma {:induction false} SplitNoSep(x: string, sep: char)
    requires sep !in x
    ensures Split(x, sep) == [x]
    decreases |x|
  {
    if |x| > 0 {
      SplitNoSep(x[1..], sep);
      assert [x[0]] + x[1..] == x;
    }
  }

  /** Splitting `x + sep + t`, where `x` has no separator, yields `x` followed by
      the pieces of `t`. */
  lemma {:induction false} SplitCons(x: string, t: string, sep: char)
    requires sep !in x
    ensures Split(x + [sep] + t, sep) == [x] + Split(t, sep)
    decreases |x|
  {
    var s := x + [sep] + t;
    if |x| == 0 {
      assert s[1..] == t;
    } else {
      assert s[1..] == x[1..] + [sep] + t;
      SplitCons(x[1..], t, sep);
      assert [x[0]] + x[1..] == x;
    }
  }

  /** Splitting undoes joining, for a non-empty list of separator-free pieces. */
  lemma {:induction false} SplitJoin(parts: seq<string>, sep: char)
    requires |parts| >= 1
    requires forall i :: 0 <= i < |parts| ==> sep !in parts[i]
    ensures Split(Join(parts, sep), sep) == parts
    decreases |parts|
  {
    if |parts| == 1 {
      SplitNoSep(parts[0], sep);
    } else {
      SplitJoin(parts[1..], sep);
      SplitCons(parts[0], Join(parts[1..], sep), sep);
      assert [parts[0]] + parts[1..] == parts;
    }
  }

  /** `s.startswith(p)`. */
  predicate StartsWith(s: string, p: string) {
    |p| <= |s| && s[..|p|] == p
  }

  /** `s.endswith(p)`. */
  predicate EndsWith(s: string, p: string) {
    |p| <= |s| && s[|s| - |p|..] == p
  }

  /** `list(s).index(x)`: the position of the first occurrence of `x`, or
      `None` where Python raises `ValueError`. */
  function IndexOf<T(==)>(s: seq<T>, x: T): (r: Option<nat>)
    ensures r.None? <==> x !in s
    ensures r.Some? ==> r.value < |s| && s[r.value] == x
    ensures r.Some? ==> forall j :: 0 <= j < r.value ==> s[j] != x
    decreases |s|
  {
    if |s| == 0 then None
    else if s[0] == x then Some(0)
    else
      match IndexOf(s[1..], x)
      case None => None
      case Some(k) => Some(k + 1)
  }

  /** `s[i]` for a Python list or numpy array: negative indices count from the
      end; `None` where Python raises `IndexError`. */
  function Subscript<T>(s: seq<T>, i: int): (r: Option<T>)
    ensures r.Some? <==> -|s| <= i < |s|
    ensures r.Some? ==> r.value in s
    ensures 0 <= i < |s| ==> r == Some(s[i])
    ensures -|s| <= i < 0 ==> r == Some(s[|s| + i])
  {
    if 0 <= i < |s| then Some(s[i])
    else if -|s| <= i < 0 then Some(s[|s| + i])
    else None
  }
}

=== FILE: records.dfy ===
/** The two persisted entities of core/models.py and the database rules that
    govern them: `EmailClassification` (one row per prediction) and
    `ClassificationFeedback` (at most one per classification), the optional
    owner, the defaults, the cascades on delete, the default ordering and the
    display strings. The database is a value: a `Store` holding the user table,
    the classification table keyed by id, the set of feedback rows and the next
    id the database will hand out. */
module Records {
  import opened Wrappers
  import opened PyText

  type UserId = nat
  type ClassificationId = nat

  /** A creation time as read from the clock (`auto_now_add`); larger is later. */
  type Timestamp = int

  const Ham: string := "ham"
  const Spam: string := "spam"

  /** `CLASSIFICATION_CHOICES`, in declaration order. */
  const LabelChoices: seq<string> := [Ham, Spam]

  /** The owner name shown for a classification that has no owner. */
  const SystemName: string := "System"

  /** A row of Django's user table, as far as this application reads it. */
  datatype User = User(username: string)

  /** `EmailClassification`. `classifiedAs` is free text at this level: the
      choices are declared but `objects.create` does not check them. */
  datatype Classification = Classification(
    owner: Option<UserId>,
    emailText: string,
    classifiedAs: string,
    confidence: Option<real>,
    timestamp: Timestamp,
    feedbackProvided: bool)

  /** `ClassificationFeedback`; `classification` is the one-to-one link. */
  datatype Feedback = Feedback(
    classification: ClassificationId,
    isCorrect: bool,
    comment: Option<string>,
    timestamp: Timestamp)

  datatype Store = Store(
    users: map<UserId, User>,
    classifications: map<ClassificationId, Classification>,
    feedback: set<Feedback>,
    nextId: ClassificationId)

  /** A classification as `objects.create` stores it: the given fields, and the
      field default `is_feedback_provided = False`. */
  function NewClassification(owner: Option<UserId>, text: string, verdict: string,
                             confidence: Option<real>, now: Timestamp): (c: Classification)
    ensures c.owner == owner && c.emailText == text && c.classifiedAs == verdict
    ensures c.confidence == confidence && c.timestamp == now && !c.feedbackProvided
  {
    Classification(owner, text, verdict, confidence, now, false)
  }

  /** Some feedback row points at classification `id`. */
  predicate HasFeedback(s: Store, id: ClassificationId) {
    exists f :: f in s.feedback && f.classification == id
  }

  /** Every id in use is below the one the database hands out next. */
  predicate IdsAllocated(s: Store) {
    forall id :: id in s.classifications ==> id < s.nextId
  }

  /** Foreign key `user`: a classification's owner, when it has one, exists. */
  predicate OwnersExist(s: Store) {
    forall id :: id in s.classifications && s.classifications[id].owner.Some? ==>
      s.classifications[id].owner.value in s.users
  }

  /** Foreign key `classification`: feedback points at an existing row. */
  predicate FeedbackLinked(s: Store) {
    forall f :: f in s.feedback ==> f.classification in s.classifications
  }

  /** The one-to-one constraint: at most one feedback row per classification. */
  predicate OneFeedbackEach(s: Store) {
    forall f, g :: f in s.feedback && g in s.feedback && f.classification == g.classification ==> f == g
  }

  /** `is_feedback_provided` is set exactly on the classifications that have feedback. */
  predicate FlagsMatch(s: Store) {
    forall id :: id in s.classifications ==>
      (s.classifications[id].feedbackProvided <==> HasFeedback(s, id))
  }

  /** The consistency the application's writes keep. */
  predicate Valid(s: Store) {
    IdsAllocated(s) && OwnersExist(s) && FeedbackLinked(s) && OneFeedbackEach(s) && FlagsMatch(s)
  }

  /** The empty database. */
  function EmptyStore(users: map<UserId, User>): (s: Store)
    ensures Valid(s)
    ensures s.classifications == map[] && s.feedback == {}
  {
    Store(users, map[], {}, 0)
  }

  /** `EmailClassification.objects.create(...)`: the row is stored under the id
      the database hands out. `None` where the database raises
      `IntegrityError`: the id is already taken, or the owner does not exist. */
  function InsertClassification(s: Store, c: Classification): (r: Option<(ClassificationId, Store)>)
    ensures r.None? <==> s.nextId in s.classifications || (c.owner.Some? && c.owner.value !in s.users)
    ensures r.Some? ==>
      var (id, t) := r.value;
      && id !in s.classifications
      && t.classifications.Keys == s.classifications.Keys + {id}
      && t.classifications[id] == c
      && (forall k :: k in s.classifications ==> t.classifications[k] == s.classifications[k])
      && t.users == s.users && t.feedback == s.feedback
      && t.nextId > id
  {
    if s.nextId in s.classifications || (c.owner.Some? && c.owner.value !in s.users) then None
    else Some((s.nextId, s.(classifications := s.classifications[s.nextId := c], nextId := s.nextId + 1)))
  }

  /** `feedback.save()` for a new feedback row. `None` where the database raises
      `IntegrityError`: the classification does not exist, or already has a
      feedback row (the one-to-one constraint). */
  function InsertFeedback(s: Store, f: Feedback): (r: Option<Store>)
    ensures r.None? <==> f.classification !in s.classifications || HasFeedback(s, f.classification)
    ensures r.Some? ==>
      && f !in s.feedback
      && r.value.feedback == s.feedback + {f}
      && r.value.classifications == s.classifications
      && r.value.users == s.users && r.value.nextId == s.nextId
  {
    if f.classification !in s.classifications || HasFeedback(s, f.classification) then None
    else Some(s.(feedback := s.feedback + {f}))
  }

  /** `classification.is_feedback_provided = True; classification.save()`: the
      row is written back with the flag set and every other field as it was. */
  function MarkFeedbackProvided(s: Store, id: ClassificationId): (t: Store)
    requires id in s.classifications
    ensures t.classifications.Keys == s.classifications.Keys
    ensures t.classifications[id].feedbackProvided
    ensures t.classifications[id].(feedbackProvided := false) == s.classifications[id].(feedbackProvided := false)
    ensures forall k :: k in s.classifications && k != id ==> t.classifications[k] == s.classifications[k]
    ensures t.users == s.users && t.feedback == s.feedback && t.nextId == s.nextId
  {
    s.(classifications := s.classifications[id := s.classifications[id].(feedbackProvided := true)])
  }

  /** Deleting a classification (`on_delete=CASCADE` on the feedback link):
      the row goes, and so does its feedback; nothing else changes. */
  function DeleteClassification(s: Store, id: ClassificationId): (t: Store)
    ensures id !in t.classifications && !HasFeedback(t, id)
    ensures t.classifications.Keys == s.classifications.Keys - {id}
    ensures forall k :: k in t.classifications ==> t.classifications[k] == s.classifications[k]
    ensures forall f :: f in s.feedback && f.classification != id ==> f in t.feedback
    ensures t.feedback <= s.feedback
    ensures t.users == s.users && t.nextId == s.nextId
  {
    s.(classifications := s.classifications - {id},
       feedback := set f | f in s.feedback && f.classification != id)
  }

  /** Deleting a user (`on_delete=CASCADE` on the owner link, then on the
      feedback link): the user, every classification it owns and the feedback
      on those go; ownerless classifications and other users' rows stay. */
  function DeleteUser(s: Store, u: UserId): (t: Store)
    ensures u !in t.users && t.users.Keys == s.users.Keys - {u}
    ensures forall v :: v in t.users ==> t.users[v] == s.users[v]
    ensures forall k :: k in t.classifications ==> t.classifications[k].owner != Some(u)
    ensures forall k :: k in s.classifications && s.classifications[k].owner != Some(u) ==>
              k in t.classifications && t.classifications[k] == s.classifications[k]
    ensures forall k :: k in t.classifications ==> k in s.classifications
    ensures forall f :: f in t.feedback <==> f in s.feedback && f.classification in t.classifications
    ensures t.nextId == s.nextId
  {
    var kept := map k | k in s.classifications && s.classifications[k].owner != Some(u) :: s.classifications[k];
    var fs := set f | f in s.feedback && f.classification in kept;
    Store(s.users - {u}, kept, fs, s.nextId)
  }

  /** A new row keeps the store consistent. */
  lemma InsertClassificationValid(s: Store, c: Classification)
    requires Valid(s) && !c.feedbackProvided
    requires c.owner.Some? ==> c.owner.value in s.users
    ensures InsertClassification(s, c).Some?
    ensures Valid(InsertClassification(s, c).value.1)
  {
    var (id, t) := InsertClassification(s, c).value;
    assert !HasFeedback(s, id);
    forall k | k in t.classifications
      ensures t.classifications[k].feedbackProvided <==> HasFeedback(t, k)
    {
      if k != id {
        assert HasFeedback(t, k) == HasFeedback(s, k);
      }
    }
  }

  /** The two feedback writes, in order, keep the store consistent. */
  lemma FeedbackWritesValid(s: Store, f: Feedback)
    requires Valid(s) && f.classification in s.classifications
    requires !s.classifications[f.classification].feedbackProvided
    ensures InsertFeedback(s, f).Some?
    ensures Valid(MarkFeedbackProvided(InsertFeedback(s, f).value, f.classification))
  {
    var id := f.classification;
    var t := InsertFeedback(s, f).value;
    var u := MarkFeedbackProvided(t, id);
    assert HasFeedback(u, id);
    forall k | k in u.classifications
      ensures u.classifications[k].feedbackProvided <==> HasFeedback(u, k)
    {
      if k != id {
        if HasFeedback(u, k) {
          var g :| g in u.feedback && g.classification == k;
          assert g in s.feedback;
        }
      }
    }
  }

  /** Deleting a classification keeps the store consistent. */
  lemma DeleteClassificationValid(s: Store, id: ClassificationId)
    requires Valid(s)
    ensures Valid(DeleteClassification(s, id))
  {
    var t := DeleteClassification(s, id);
    forall k | k in t.classifications
      ensures t.classifications[k].feedbackProvided <==> HasFeedback(t, k)
    {
      if HasFeedback(s, k) {
        var g :| g in s.feedback && g.classification == k;
        assert g in t.feedback;
      }
    }
  }

  /** Deleting a user keeps the store consistent: nothing is left pointing at
      the user or at a deleted classification. */
  lemma DeleteUserValid(s: Store, u: UserId)
    requires Valid(s)
    ensures Valid(DeleteUser(s, u))
  {
    var t := DeleteUser(s, u);
    forall k | k in t.classifications
      ensures t.classifications[k].feedbackProvided <==> HasFeedback(t, k)
    {
      if HasFeedback(s, k) {
        var g :| g in s.feedback && g.classification == k;
        assert g in t.feedback;
      }
    }
  }

  /** `Meta.ordering = ['-timestamp']`: newest first. */
  predicate NewestFirst(rs: seq<Classification>) {
    forall i, j :: 0 <= i < j < |rs| ==> rs[i].timestamp >= rs[j].timestamp
  }

  /** Places `c` into a newest-first list, ahead of the rows that are not newer. */
  function InsertByTime(c: Classification, rs: seq<Classification>): (r: seq<Classification>)
    requires NewestFirst(rs)
    ensures NewestFirst(r)
    ensures |r| == |rs| + 1 && (r[0] == c || (|rs| > 0 && r[0] == rs[0]))
    decreases |rs|
  {
    if |rs| == 0 || rs[0].timestamp <= c.timestamp then [c] + rs
    else
      var tail := InsertByTime(c, rs[1..]);
      var r := [rs[0]] + tail;
      assert rs[0].timestamp >= tail[0].timestamp;
      forall i, j | 0 <= i < j < |r| ensures r[i].timestamp >= r[j].timestamp {
        assert r[j] == tail[j - 1];
        if i > 0 {
          assert r[i] == tail[i - 1];
        } else {
          assert tail[0].timestamp >= tail[j - 1].timestamp;
        }
      }
      r
  }

  /** Inserting adds exactly the one row: the result is a permutation of `rs` plus `c`. */
  lemma {:induction false} InsertByTimePermutes(c: Classification, rs: seq<Classification>)
    requires NewestFirst(rs)
    ensures multiset(InsertByTime(c, rs)) == multiset(rs) + multiset{c}
    decreases |rs|
  {
    if !(|rs| == 0 || rs[0].timestamp <= c.timestamp) {
      InsertByTimePermutes(c, rs[1..]);
      assert rs == [rs[0]] + rs[1..];
    }
  }

  /** The rows in the default ordering, newest first (see
      `OrderNewestFirstPermutes` for "the same rows"). */
  function OrderNewestFirst(rs: seq<Classification>): (r: seq<Classification>)
    ensures NewestFirst(r)
    ensures |r| == |rs|
    decreases |rs|
  {
    if |rs| == 0 then [] else InsertByTime(rs[0], OrderNewestFirst(rs[1..]))
  }

  /** Ordering neither drops nor duplicates a row. */
  lemma {:induction false} OrderNewestFirstPermutes(rs: seq<Classification>)
    ensures multiset(OrderNewestFirst(rs)) == multiset(rs)
    decreases |rs|
  {
    if |rs| > 0 {
      OrderNewestFirstPermutes(rs[1..]);
      InsertByTimePermutes(rs[0], OrderNewestFirst(rs[1..]));
      assert rs == [rs[0]] + rs[1..];
    }
  }

  /** Python's `str(b)` for a boolean. */
  function BoolText(b: bool): (r: string)
    ensures r == "True" <==> b
  {
    if b then "True" else "False"
  }

  /** `EmailClassification.__str__`: owner name (`System` without an owner),
      the label, and the creation time rendered by `stamp` (the
      `'%Y-%m-%d %H:%M'` formatting). */
  function ClassificationText(s: Store, c: Classification, stamp: Timestamp -> string): (r: string)
    requires c.owner.Some? ==> c.owner.value in s.users
    ensures c.owner.None? ==> StartsWith(r, SystemName + " - " + c.classifiedAs + " (")
    ensures c.owner.Some? ==> StartsWith(r, s.users[c.owner.value].username + " - " + c.classifiedAs + " (")
    ensures EndsWith(r, " (" + stamp(c.timestamp) + ")")
    // nothing between the head and the time: the two pieces overlap in " ("
    ensures c.owner.None? ==> |r| == |SystemName + " - " + c.classifiedAs| + |" (" + stamp(c.timestamp) + ")"|
    ensures c.owner.Some? ==>
              |r| == |s.users[c.owner.value].username + " - " + c.classifiedAs| + |" (" + stamp(c.timestamp) + ")"|
  {
    var name := if c.owner.Some? then s.users[c.owner.value].username else SystemName;
    var head := name + " - " + c.classifiedAs + " (";
    var r := head + stamp(c.timestamp) + ")";
    assert r[..|head|] == head;
    assert r[|r| - |" (" + stamp(c.timestamp) + ")"|..] == " (" + stamp(c.timestamp) + ")";
    r
  }

  /** `ClassificationFeedback.__str__`. */
  function FeedbackText(s: Store, f: Feedback, stamp: Timestamp -> string): (r: string)
    requires f.classification in s.classifications
    requires var c := s.classifications[f.classification]; c.owner.Some? ==> c.owner.value in s.users
    ensures StartsWith(r, "Feedback for " + ClassificationText(s, s.classifications[f.classification], stamp))
    ensures EndsWith(r, " - Correct: " + BoolText(f.isCorrect))
    // nothing between the two pieces
    ensures |r| == |"Feedback for " + ClassificationText(s, s.classifications[f.classification], stamp)|
                   + |" - Correct: " + BoolText(f.isCorrect)|
  {
    var head := "Feedback for " + ClassificationText(s, s.classifications[f.classification], stamp);
    var tail := " - Correct: " + BoolText(f.isCorrect);
    var r := head + tail;
    assert r[..|head|] == head;
    assert r[|r| - |tail|..] == tail;
    r
  }
}

=== FILE: settings.dfy ===
/** The `ALLOWED_HOSTS` setting (spam_classifier_project/settings.py): the
    comma-separated `DJANGO_ALLOWED_HOSTS` value is split on commas, each piece
    is stripped of surrounding whitespace, and blank pieces are dropped. */
module Settings {
  import opened PyText

  /** The value used when `DJANGO_ALLOWED_HOSTS` is not configured. */
  const DefaultAllowedHosts: string := "127.0.0.1,localhost"

  /** A host name as the setting can hold it: non-empty, no surrounding
      whitespace, no comma. */
  predicate WellFormedHost(h: string) {
    |h| > 0 && Stripped(h) && ',' !in h
  }

  /** The comprehension's filter-and-map over the comma-separated pieces:
      `[p.strip() for p in pieces if p.strip()]`. */
  function KeepHosts(pieces: seq<string>): (hosts: seq<string>)
    ensures forall i :: 0 <= i < |hosts| ==> |hosts[i]| > 0 && Stripped(hosts[i])
    decreases |pieces|
  {
    if |pieces| == 0 then []
    else
      var h := Strip(pieces[0]);
      var rest := KeepHosts(pieces[1..]);
      if |h| > 0 then [h] + rest else rest
  }

  /** Hosts cut from comma-free pieces are comma-free. */
  lemma {:induction false} KeepHostsCommaFree(pieces: seq<string>)
    requires forall i :: 0 <= i < |pieces| ==> ',' !in pieces[i]
    ensures forall i :: 0 <= i < |KeepHosts(pieces)| ==> ',' !in KeepHosts(pieces)[i]
    decreases |pieces|
  {
    if |pieces| > 0 {
      StripKeepsOut(pieces[0], ',');
      KeepHostsCommaFree(pieces[1..]);
    }
  }

  /** `ALLOWED_HOSTS` computed from the configured string: every host is
      well formed (non-empty, stripped, comma-free). */
  function AllowedHosts(raw: string): (hosts: seq<string>)
    ensures forall i :: 0 <= i < |hosts| ==> WellFormedHost(hosts[i])
  {
    KeepHostsCommaFree(Split(raw, ','));
    KeepHosts(Split(raw, ','))
  }

  /** One piece gives exactly one host, its `strip()`, unless that is blank;
      with `KeepHostsAppend` this fixes `KeepHosts` on every list of pieces. */
  lemma KeepHostsSingle(p: string)
    ensures KeepHosts([p]) == (if |Strip(p)| > 0 then [Strip(p)] else [])
  {
    assert [p][1..] == [];
  }

  /** Filtering a concatenation filters each part in turn: hosts come out in the
      order of the pieces they were cut from. */
  lemma {:induction false} KeepHostsAppend(a: seq<string>, b: seq<string>)
    ensures KeepHosts(a + b) == KeepHosts(a) + KeepHosts(b)
    decreases |a|
  {
    if |a| > 0 {
      KeepHostsAppend(a[1..], b);
      assert (a + b)[0] == a[0];
      assert (a + b)[1..] == a[1..] + b;
    } else {
      assert a + b == b;
    }
  }

  /** A string is a host of the setting exactly when it is the stripped form of
      some non-blank comma-separated piece of the configured value. */
  lemma {:induction false} KeepHostsMembers(pieces: seq<string>, h: string)
    ensures h in KeepHosts(pieces) <==>
            exists i :: 0 <= i < |pieces| && Strip(pieces[i]) == h && |h| > 0
    decreases |pieces|
  {
    if |pieces| > 0 {
      KeepHostsMembers(pieces[1..], h);
      if h in KeepHosts(pieces[1..]) {
        var i :| 0 <= i < |pieces[1..]| && Strip(pieces[1..][i]) == h && |h| > 0;
        assert Strip(pieces[i + 1]) == h;
      }
      if exists i :: 0 <= i < |pieces| && Strip(pieces[i]) == h && |h| > 0 {
        var i :| 0 <= i < |pieces| && Strip(pieces[i]) == h && |h| > 0;
        if i > 0 {
          assert pieces[1..][i - 1] == pieces[i];
        }
      }
    }
  }

  /** Pieces that are empty or whitespace-only contribute nothing. */
  lemma {:induction false} BlankPiecesDropped(pieces: seq<string>)
    requires forall i :: 0 <= i < |pieces| ==> AllSpace(pieces[i])
    ensures KeepHosts(pieces) == []
    decreases |pieces|
  {
    if |pieces| > 0 {
      StripCutsSpace(pieces[0]);
      BlankPiecesDropped(pieces[1..]);
    }
  }

  /** Well-formed hosts pass through the filter unchanged. */
  lemma {:induction false} KeepHostsFixed(hosts: seq<string>)
    requires forall i :: 0 <= i < |hosts| ==> |hosts[i]| > 0 && Stripped(hosts[i])
    ensures KeepHosts(hosts) == hosts
    decreases |hosts|
  {
    if |hosts| > 0 {
      StripStripped(hosts[0]);
      KeepHostsFixed(hosts[1..]);
    }
  }

  /** Writing the setting back out as a comma-separated string and parsing it
      again gives the same list of hosts. */
  lemma AllowedHostsIdempotent(raw: string)
    ensures AllowedHosts(Join(AllowedHosts(raw), ',')) == AllowedHosts(raw)
  {
    var hosts := AllowedHosts(raw);
    if |hosts| == 0 {
      assert Split("", ',') == [""];
      assert Strip("") == "";
    } else {
      SplitJoin(hosts, ',');
      KeepHostsFixed(hosts);
    }
  }

  /** Blank pieces in the middle and at the end disappear: `"a, ,b,"` gives `a`, `b`. */
  lemma AllowedHostsDropsBlanks()
    ensures AllowedHosts("a, ,b,") == ["a", "b"]
  {
    var x, b, y := "a", " ", "b";
    assert "a, ,b," == x + [','] + b + [','] + y + [','];
    BlankBetweenHosts(x, b, y);
  }

  /** A blank piece between two hosts and an empty piece after a trailing
      comma contribute nothing. */
  lemma BlankBetweenHosts(x: string, b: string, y: string)
    requires WellFormedHost(x) && WellFormedHost(y)
    requires AllSpace(b) && ',' !in b
    ensures AllowedHosts(x + [','] + b + [','] + y + [',']) == [x, y]
  {
    var pieces := [x, b, y, ""];
    SplitJoin(pieces, ',');
    JoinFour(x, b, y);
    KeepHostsAppend([x, b], [y, ""]);
    KeepHostsOneBlank(x, b);
    KeepHostsOneBlank(y, "");
    assert [x, b] + [y, ""] == pieces;
  }

  /** Joining four pieces, the last one empty, ends in a comma. */
  lemma JoinFour(x: string, b: string, y: string)
    ensures Join([x, b, y, ""], ',') == x + [','] + b + [','] + y + [',']
  {
    var pieces := [x, b, y, ""];
    assert Join(pieces[3..], ',') == "";
    assert Join(pieces[2..], ',') == y + [','];
    assert Join(pieces[1..], ',') == b + [','] + y + [','];
  }

  /** A host followed by a blank piece keeps only the host. */
  lemma KeepHostsOneBlank(x: string, b: string)
    requires WellFormedHost(x) && AllSpace(b)
    ensures KeepHosts([x, b]) == [x]
  {
    StripStripped(x);
    BlankPiecesDropped([b]);
    assert [x, b][1..] == [b];
  }

  /** The default configuration allows the loopback address and `localhost`. */
  lemma DefaultAllowedHostsValue()
    ensures AllowedHosts(DefaultAllowedHosts) == ["127.0.0.1", "localhost"]
  {
    var x, y := "127.0.0.1", "localhost";
    assert DefaultAllowedHosts == x + [','] + y;
    TwoHosts(x, y);
  }

  /** Two well-formed hosts joined by a comma parse back to exactly those two. */
  lemma TwoHosts(x: string, y: string)
    requires WellFormedHost(x) && WellFormedHost(y)
    ensures AllowedHosts(x + [','] + y) == [x, y]
  {
    SplitJoin([x, y], ',');
    assert Join([x, y], ',') == x + [','] + y;
    KeepHostsFixed([x, y]);
  }
}

=== FILE: wrappers.dfy ===
/** The optional value used throughout the model for Python's `None`-or-value. */
module Wrappers {

  /** `None` stands for Python's `None` or an absent key; `Some(v)` for a present value. */
  datatype Option<+T> = None | Some(value: T)
}
